=== FILE: README.md ===
# gh-boot: the name prompt and the command plan, in Dafny

`gh-boot` is an interactive project wizard. It asks for a project name, a template, a
package manager and a repository visibility. Then it runs scaffolding tools and, if asked,
creates a GitHub repository. This project models the two pieces of decision logic in
`main.go`:

- **The placeholder prompt** (`promptWithPlaceholder`). The read loop is a state machine
  over a byte buffer and a "placeholder visible" flag. `Prompt.Step` handles one key.
  `Prompt.Feed` runs over a finite key sequence and stops at the first key that ends the
  prompt. A Go string is a byte string, so the buffer is `seq<byte>`. A typed rune appends
  Go's UTF-8 encoding of that rune (`Utf8.Encode`). That encoding turns negative runes,
  surrogates and runes beyond U+10FFFF into U+FFFD. Backspace removes one byte.
- **The command plan** (`bootApp`). `Plan.BootPlan` maps (template, package manager,
  project name, visibility) to the ordered actions `bootApp` performs. These are external
  commands with exact argument lists, `gh` calls, and abstract `Mkdir`/`Chdir`/`Remove`/`Create`
  steps. An unknown template gives `Err(InvalidFramework)`.
- **The wizard end to end** (`Boot.BootApp`). It composes the prompt with placeholder
  `my-app`, the three menu answers and the plan. The result is the actions performed and the
  exit status. Each menu answer is an input, and so is which planned steps fail. `None` means the menu failed or was interrupted,
  and in both cases the program exits with status 1.

Modules: `Base` (bytes, `Option`, reading bytes as text), `Utf8`, `Prompt`, `Plan`, `Boot`.

The empty-submission check follows the code. On Enter with an empty buffer, the placeholder
is substituted. The "Input cannot be empty" branch (main.go:158-164) runs only when the
placeholder itself is empty. In that case the prompt starts over from its initial state.
The branch is not dead code in general. It is unreachable only for the non-empty placeholder
`bootApp` passes.

## Model

| member | source | states |
|---|---|---|
| `Utf8.Encode` | main.go:184 | a typed rune becomes a lead byte followed only by continuation bytes, in the shortest form: one byte below U+0080, two below U+0800, three for the other runes below U+10000 and for every rune that is replaced by U+FFFD, and four otherwise |
| `Utf8.DecodeEncode` | main.go:184 | decoding (with a decoder that rejects overlong forms) what `string(r)` produced gives back `r` for every scalar value and U+FFFD for every other rune |
| `Utf8.DecodeEncodeTwo` | main.go:184 | a two-byte encoding (U+0080 to U+07FF) decodes back to the rune typed |
| `Utf8.DecodeEncodeThree` | main.go:184 | a three-byte encoding of a scalar value decodes back to the rune typed |
| `Utf8.DecodeEncodeFour` | main.go:184 | a four-byte encoding (U+10000 to U+10FFFF) decodes back to the rune typed |
| `Utf8.InvalidRuneIsReplacement` | main.go:184 | a negative rune, a surrogate or a rune beyond U+10FFFF is written exactly as U+FFFD is (`EF BF BD`) |
| `Utf8.EncodeInjective` | main.go:184 | two distinct typed scalar values never append the same bytes |
| `Prompt.Step` | main.go:144-192 | one loop iteration keeps the flag equal to "buffer is empty"; a successful return never carries an empty value; a read error returns `("", err)`; an interrupt exits with status 1 |
| `Prompt.Feed` | main.go:144-193 | a run stops at the first key that ends the prompt, and the unread keys are exactly the suffix after it; only Enter, an interrupt or a read error can be that key; a state that is still reading keeps the flag/buffer coupling |
| `Prompt.PromptWithPlaceholder` | main.go:131-148 | a keyboard that fails to open returns `("", err)` before any key is read; otherwise the prompt is exactly `Feed` from `Initial` (empty buffer, placeholder visible), so every lemma about runs from `Initial` applies to it |
| `Prompt.FeedAppend` | main.go:144-193 | feeding keys in two batches equals feeding them at once; after an ending key, later keys are left unread |
| `Prompt.EnterOutcome` | main.go:151-165 | Enter returns the buffer when it is non-empty and the placeholder when the buffer is empty; it keeps reading, from the initial state, exactly when both are empty |
| `Prompt.BackspaceRemovesLastByte` | main.go:167-172 | Backspace on an empty buffer changes nothing; otherwise it removes exactly the last byte and keeps the rest |
| `Prompt.TerminalKeyStops` | main.go:144-176 | Ctrl-C/Ctrl-D exits with status 1, and a read error returns `("", err)`, whatever came before; no later key is read |
| `Prompt.EditsBuildBuffer` | main.go:167-192 | typing and deleting never end the prompt; the buffer equals an independent last-key-first definition of the edited bytes, and the placeholder is shown exactly when that is empty |
| `Prompt.SubmitAfterEdits` | main.go:151-192 | Enter after edits returns exactly the edited bytes, or the placeholder if there are none; with an empty placeholder it starts over on the remaining keys |
| `Prompt.EditedTyped` | main.go:178-185 | typing a run of runes leaves their concatenated UTF-8 encodings in the buffer |
| `Prompt.TypeAndSubmit` | main.go:151-185 | typing non-empty text and pressing Enter returns the text's bytes and reads nothing further |
| `Prompt.EncodeAllAscii` | main.go:184 | ASCII text appends one byte per character, equal to the character |
| `Prompt.BackspacesDropBytes` | main.go:167-172 | `n` backspaces remove the last `n` bytes, or empty the buffer when it holds fewer |
| `Prompt.TypeThenEraseAscii` | main.go:167-192 | `n` ASCII characters followed by `n` backspaces give back the initial state, placeholder visible |
| `Prompt.BackspaceAfterChar` | main.go:167-185 | a rune followed by Backspace restores the previous state exactly when the rune is ASCII; otherwise the leading bytes of its encoding stay in the buffer |
| `Plan.Scaffold` | main.go:50-103 | a local plan exists exactly for the four menu templates and never calls `gh`; its second step always enters the project directory; `cdk` makes that directory first and then runs `cdk init`, `react` first runs `<pm> create vite@latest <name> --template react-ts`; each Next.js template's local plan is exactly its `npx create-next-app@<tag>` command, with every flag written out (canary's ending in `--turbo`), followed by entering the directory |
| `Plan.Publish` | main.go:118-125 | there is one `gh` step exactly when the visibility is not `none`, and the plan always ends by returning to the parent directory |
| `Plan.BootPlan` | main.go:50-125 | the plan is an error exactly when the template is not one of the four menu templates |
| `Plan.NextjsVariants` | main.go:52-57 | the latest and canary Next.js plans differ only in the `create-next-app@<tag>` token and canary's trailing `--turbo`; both pass `--use-<pm>` |
| `Plan.CdkInstallsThenAddsHono` | main.go:61-84 | for `cdk`, the project directory is made and entered and `cdk init` runs; the lock file is removed, then `<pm> install` runs, then `<pm> <verb> hono`; the verb is `i` exactly for npm and `add` otherwise; last `lambda` and `lambda/index.ts` are created |
| `Plan.RemoteStepLast` | main.go:118-125 | `gh repo create <name> --source . --<visibility> --remote gh-origin --push` is planned exactly when the visibility is not `none`; it is the only `gh` step, and only the return to the parent directory follows it |
| `Plan.OnlyReactCommits` | main.go:58-102 | each of `git init`, `git add .` and `git commit` is planned exactly for `react`, right after `<pm> install` and right before publishing; `<pm> install` runs for `react` and `cdk` only |
| `Boot.FirstHalt` | main.go:197-215 | finds the first failing step whose failure is fatal: every step before it either succeeds or ignores its error, and with no such step none of the failing steps is fatal |
| `Boot.Perform` | main.go:197-215 | performs a prefix of the plan; status 0 means the whole plan ran with no fatal failure; status 1 means the last step performed failed fatally and no earlier step did |
| `Boot.FatalFailureStopsRun` | main.go:197-215 | once every question is answered, the run performs the plan exactly up to the first failing fatal step and exits with 1 |
| `Boot.LocalFailureStopsRun` | main.go:50-103 | a fatal failure among the local steps ends the run right after it, whatever the visibility menu would have answered |
| `Boot.BootApp` | main.go:18-127 | the wizard exits with status 0 or 1 |
| `Boot.BootSucceedsExactly` | main.go:18-127 | exit status 0 happens exactly when the name was submitted, every menu was answered, the template is known and no fatal step fails; the actions are then exactly the plan, for a non-empty project name |
| `Boot.FailedRunStopsAtGh` | main.go:209-215 | in a run that exits with 1, a `gh` call, if made, was the last action; the repository it created may remain |
| `Boot.IgnoredFailuresChangeNothing` | main.go:63-125 | failures of the `cdk` directory calls, the lock-file removal, `Mkdir("lambda")` and the final return to the parent directory leave the performed plan and exit status 0 unchanged |
| `Boot.ChdirFailure` | main.go:91-96 | a failure to enter the project directory ends Next.js and React runs with 1 right after the creation command; `cdk` ignores it and finishes with 0 |
| `Boot.NothingRunsWithoutAnswers` | main.go:18-48 | a failed keyboard open, a read error, a cancelled name prompt, or a failed template or package-manager menu ends the program with status 1 before any action |
| `Boot.InvalidTemplateRunsNothing` | main.go:85-87 | an unknown template exits with status 1 before any action |
| `Boot.CancelRunsNothing` | main.go:174-176 | cancelling the name prompt exits with status 1 before any action |
| `Boot.VisibilityFailureKeepsLocal` | main.go:106-116 | after a local plan with no fatal failure, a failed visibility menu exits with 1 having performed exactly the local plan, so nothing is published |
| `Boot.EnterAcceptsDefaultName` | main.go:152-154 | pressing Enter at once names the project `my-app`, and the React plan uses that name |
| `Boot.TypedNameSubmitted` | main.go:178-185 | typing `shop-app` then Enter submits `shop-app` |
| `Boot.EditedNameSubmitted` | main.go:167-185 | typing `abc`, two backspaces, `x` and Enter submits `ax` |

## Left out

- Terminal rendering: the ANSI redraws, the prompt label and all `fmt` output. They do not affect any returned value. The prompt label is therefore not a parameter.
- `keyboard.Open`/`GetKey`/`Close`. Keys arrive already classified, as `Prompt.Key`. Whether the library reports space or arrow keys as printable runes is not known here. An open failure is an input (`openErr`). Releasing the keyboard has no modelled effect. The interrupt path calls `os.Exit(1)` (main.go:176), which skips the deferred `keyboard.Close()` (main.go:142). Every exit after a successful open does release the keyboard. A failed open (main.go:139-141) returns before the deferred close is registered, so there is nothing to release.
- Running commands: `exec.Command`, `gh.Exec` and the real filesystem calls. Whether each step fails is an input (`failing`, positions in the plan). A failing command or `gh` call, a failing `os.Create`, and a failing `os.Chdir(projectName)` outside `cdk` end the program with status 1. `cdk`'s `os.Mkdir`/`os.Chdir`, the lock-file `os.Remove`, `os.Mkdir("lambda")` and the final `os.Chdir("..")` discard their errors, and the program carries on.
- The working directory is not tracked. After an ignored `os.Chdir` failure in `cdk`, the later commands run in the parent directory. The model records only that they are still issued.
- `Boot.FailedRunStopsAtGh`: does not say whether a failed `gh repo create ... --push` left a repository behind. `gh.Exec` only reports failure, so what it created before failing is not known.
- `Boot.BootApp`: the menu widgets are inputs, not modelled widgets. `handleSurveyError`'s case-insensitive match on "interrupt" only picks which message to print. Both branches exit with status 1, so the model keeps just that exit.
- `Boot.BootApp`: the project name is the submitted bytes read as text, one character per byte. Go passes those bytes unchanged to the commands.

=== FILE: base.dfy ===
/** Small shared vocabulary: bytes (Go strings are byte sequences) and an optional value. */
module Base {

  /** One byte of a Go string. */
  newtype byte = x: int | 0 <= x < 0x100

  type Bytes = seq<byte>

  /** A value that may be absent; `None` stands for Go's `nil` error. */
  datatype Option<+T> = None | Some(value: T)

  /** Reads a byte string as text, one character per byte (code point = byte value). */
  function ToText(b: Bytes): (s: string)
    ensures |s| == |b|
    ensures forall i :: 0 <= i < |b| ==> s[i] as int == b[i] as int
  {
    seq(|b|, i requires 0 <= i < |b| => b[i] as int as char)
  }

  /** True of text whose every character fits in one byte. */
  predicate IsByteText(s: string)
  {
    forall i :: 0 <= i < |s| ==> s[i] as int < 0x100
  }

  /** The byte string whose characters, read back by `ToText`, are `s`. */
  function FromByteText(s: string): (b: Bytes)
    requires IsByteText(s)
    ensures |b| == |s|
    ensures forall i :: 0 <= i < |s| ==> b[i] as int == s[i] as int
  {
    seq(|s|, i requires 0 <= i < |s| => s[i] as int as byte)
  }
}

=== FILE: boot.dfy ===
/** `bootApp` end to end (main.go:18-128): the project-name prompt, the three menu answers
    and the command plan, ending in the actions performed and the exit status. */
module Boot {
  import opened Base
  import opened Utf8
  import opened Prompt
  import opened Plan

  /** The project-name prompt's placeholder. */
  const DefaultName: Bytes := [0x6D, 0x79, 0x2D, 0x61, 0x70, 0x70]

  /** Everything the user, the terminal and the system supply: whether the keyboard
      failed to open, the keys pressed, each menu's answer, and the positions in the plan
      of the steps whose system call fails. A menu answer is `None` when the menu fails or
      is interrupted; either way the program prints a message and exits with 1. */
  datatype Answers = Answers(
    openErr: Option<string>,
    keys: seq<Key>,
    template: Option<string>,
    packageManager: Option<string>,
    visibility: Option<string>,
    failing: set<nat>)

  /** Either the name prompt is still waiting for keys, or the program has ended, having
      performed `actions`, with exit status `code`. */
  datatype BootRun = AwaitingKeys | Exited(actions: seq<Action>, code: int)

  /** Whether a failure of step `i` of `plan` ends the program with status 1: every
      external command and `gh` call, the creation of `lambda/index.ts`, and entering the
      project directory (step 1) for every template but `cdk`. Making and entering the
      `cdk` directory, removing the lock file, making `lambda` and returning to the parent
      directory ignore their errors. */
  predicate Halts(template: string, plan: seq<Action>, i: nat)
    requires i < |plan|
  {
    plan[i].Command? || plan[i].Gh? || plan[i].Create? || (plan[i].Chdir? && i == 1 && template != "cdk")
  }

  /** The first step at or after `from` whose failure ends the program, if any. */
  function FirstHalt(template: string, plan: seq<Action>, failing: set<nat>, from: nat): (r: Option<nat>)
    ensures r.Some? ==> from <= r.value < |plan| && r.value in failing && Halts(template, plan, r.value)
    ensures r.Some? ==> forall j :: from <= j < r.value && j in failing ==> !Halts(template, plan, j)
    ensures r.None? ==> forall j :: from <= j < |plan| && j in failing ==> !Halts(template, plan, j)
    decreases |plan| - from
  {
    if from >= |plan| then None
    else if from in failing && Halts(template, plan, from) then Some(from)
    else FirstHalt(template, plan, failing, from + 1)
  }

  /** Performs `plan` up to and including the first step whose failure ends the program. */
  function Perform(template: string, plan: seq<Action>, failing: set<nat>): (r: BootRun)
    ensures r.Exited? && |r.actions| <= |plan| && r.actions == plan[..|r.actions|]
    ensures r.code == 0 || r.code == 1
    ensures r.code == 0 ==>
      && r.actions == plan
      && forall j :: j in failing && j < |plan| ==> !Halts(template, plan, j)
    ensures r.code == 1 ==> |r.actions| > 0 && |r.actions| - 1 in failing && Halts(template, plan, |r.actions| - 1)
    ensures r.code == 1 ==> forall j :: j < |r.actions| - 1 && j in failing ==> !Halts(template, plan, j)
  {
    match FirstHalt(template, plan, failing, 0)
    case Some(i) => Exited(plan[..i + 1], 1)
    case None => Exited(plan, 0)
  }

  /** The whole wizard. The local steps run before the visibility menu is shown. */
  function BootApp(a: Answers): (r: BootRun)
    ensures r.Exited? ==> r.code == 0 || r.code == 1
  {
    match PromptWithPlaceholder(DefaultName, a.openErr, a.keys)
    case Reading(_) => AwaitingKeys
    case Done(Exit(code), _) => Exited([], code)
    case Done(Return(_, Some(_)), _) => Exited([], 1)
    case Done(Return(value, None), _) =>
      var name := ToText(value);
      if a.template.None? || a.packageManager.None? then Exited([], 1)
      else
        match Scaffold(a.template.value, a.packageManager.value, name)
        case Err(_) => Exited([], 1)
        case Ok(local) =>
          if FirstHalt(a.template.value, local, a.failing, 0).Some? then
            Perform(a.template.value, local, a.failing)
          else if a.visibility.None? then Exited(local, 1)
          else Perform(a.template.value, local + Publish(name, a.visibility.value), a.failing)
  }

  /** The name the prompt submitted without error, if it did. */
  function SubmittedName(a: Answers): Option<string>
  {
    match PromptWithPlaceholder(DefaultName, a.openErr, a.keys)
    case Done(Return(value, None), _) => Some(ToText(value))
    case _ => None
  }

  /** The name was submitted and every menu answered with a template the switch knows. */
  predicate Answered(a: Answers)
  {
    && SubmittedName(a).Some?
    && a.template.Some? && a.packageManager.Some? && a.visibility.Some?
    && a.template.value in Templates
  }

  /** The plan for answered questions. */
  function PlanFor(a: Answers): seq<Action>
    requires Answered(a)
  {
    BootPlan(a.template.value, a.packageManager.value, SubmittedName(a).value, a.visibility.value).value
  }

  /** The local part of the plan, for a submitted name and a known template. */
  function LocalPlanFor(a: Answers): seq<Action>
    requires SubmittedName(a).Some? && a.template.Some? && a.packageManager.Some?
    requires a.template.value in Templates
  {
    Scaffold(a.template.value, a.packageManager.value, SubmittedName(a).value).value
  }

  /** The wizard exits with status 0 exactly when every question was answered and no step
      whose failure is fatal fails; it has then performed exactly the plan for those
      answers, and the project name in it is never empty. */
  lemma BootSucceedsExactly(a: Answers)
    ensures BootApp(a).Exited? && BootApp(a).code == 0 <==>
      Answered(a) && FirstHalt(a.template.value, PlanFor(a), a.failing, 0).None?
    ensures BootApp(a).Exited? && BootApp(a).code == 0 ==>
      && Answered(a)
      && SubmittedName(a).value != []
      && BootApp(a).actions == PlanFor(a)
  {
  }

  /** The first fatal failure of a prefix is the first fatal failure of the whole plan. */
  lemma FirstHaltOfPrefix(template: string, plan: seq<Action>, failing: set<nat>, k: nat)
    requires k <= |plan|
    requires FirstHalt(template, plan[..k], failing, 0).Some?
    ensures FirstHalt(template, plan, failing, 0) == FirstHalt(template, plan[..k], failing, 0)
  {
    var j := FirstHalt(template, plan[..k], failing, 0).value;
    assert Halts(template, plan, j);
    var r := FirstHalt(template, plan, failing, 0);
    if r.value < j {
      assert Halts(template, plan[..k], r.value);
    }
  }

  /** After the questions are answered, a fatal failure ends the run with status 1 right
      after the first failing fatal step: exactly the steps up to it were performed. */
  lemma FatalFailureStopsRun(a: Answers, i: nat)
    requires Answered(a)
    requires FirstHalt(a.template.value, PlanFor(a), a.failing, 0) == Some(i)
    ensures BootApp(a) == Exited(PlanFor(a)[..i + 1], 1)
  {
    var local := LocalPlanFor(a);
    assert PlanFor(a)[..|local|] == local;
    if FirstHalt(a.template.value, local, a.failing, 0).Some? {
      FirstHaltOfPrefix(a.template.value, PlanFor(a), a.failing, |local|);
    }
  }

  /** A fatal failure among the local steps ends the run right after it, before the
      visibility menu, whatever that menu would have answered. */
  lemma LocalFailureStopsRun(a: Answers, i: nat)
    requires SubmittedName(a).Some? && a.template.Some? && a.packageManager.Some?
    requires a.template.value in Templates
    requires FirstHalt(a.template.value, LocalPlanFor(a), a.failing, 0) == Some(i)
    ensures BootApp(a) == Exited(LocalPlanFor(a)[..i + 1], 1)
  {
  }

  /** A run that fails never goes on past a `gh` step: if a `gh` call was made, it was the
      last thing done. The repository it created may still exist. */
  lemma FailedRunStopsAtGh(a: Answers)
    requires BootApp(a).Exited? && BootApp(a).code == 1
    ensures forall i :: 0 <= i < |BootApp(a).actions| && BootApp(a).actions[i].Gh? ==>
      i == |BootApp(a).actions| - 1
  {
  }

  /** Failures of the steps whose errors are ignored change nothing that is modelled:
      the whole plan is performed and the exit status is 0. */
  lemma IgnoredFailuresChangeNothing(a: Answers)
    requires Answered(a)
    requires forall i :: i in a.failing && i < |PlanFor(a)| ==> !Halts(a.template.value, PlanFor(a), i)
    ensures BootApp(a) == BootApp(a.(failing := {}))
    ensures BootApp(a) == Exited(PlanFor(a), 0)
  {
    BootSucceedsExactly(a);
    BootSucceedsExactly(a.(failing := {}));
  }

  /** A failure to enter the project directory ends a Next.js or React run with status 1
      right after the creation command; `cdk` ignores it and performs its whole plan. */
  lemma ChdirFailure(a: Answers)
    requires Answered(a)
    requires a.failing == {1}
    ensures BootApp(a) == if a.template.value == "cdk" then Exited(PlanFor(a), 0) else Exited(PlanFor(a)[..2], 1)
  {
  }

  /** A failed name prompt (the keyboard did not open, a key could not be read, or the
      user cancelled) and a failed template or package-manager menu each end the program
      with status 1 before anything is run. */
  lemma NothingRunsWithoutAnswers(a: Answers)
    requires BootApp(a).Exited?
    requires SubmittedName(a).None? || a.template.None? || a.packageManager.None?
    ensures BootApp(a) == Exited([], 1)
  {
  }

  /** A template outside the menu ends the program with status 1 before anything is run. */
  lemma InvalidTemplateRunsNothing(a: Answers)
    requires SubmittedName(a).Some? && a.template.Some? && a.packageManager.Some?
    requires a.template.value !in Templates
    ensures BootApp(a) == Exited([], 1)
  {
  }

  /** Cancelling the name prompt (Ctrl-C or Ctrl-D) ends the program with status 1 before
      anything is run, whatever keys and answers would have followed. */
  lemma CancelRunsNothing(a: Answers, before: seq<Key>, after: seq<Key>)
    requires a.openErr.None?
    requires AllEdits(before)
    requires a.keys == before + [Interrupt] + after
    ensures BootApp(a) == Exited([], 1)
  {
    EditsBuildBuffer(DefaultName, before);
    TerminalKeyStops(DefaultName, Initial, before, Interrupt, after);
  }

  /** A menu failure at the visibility question leaves the local project in place but
      publishes nothing and exits with 1. */
  lemma VisibilityFailureKeepsLocal(a: Answers)
    requires SubmittedName(a).Some? && a.template.Some? && a.packageManager.Some?
    requires a.template.value in Templates && a.visibility.None?
    requires FirstHalt(a.template.value, LocalPlanFor(a), a.failing, 0).None?
    ensures BootApp(a).Exited? && BootApp(a).code == 1
    ensures BootApp(a).actions == LocalPlanFor(a)
  {
  }

  /** The runes of a string, one per character. */
  function Runes(s: string): (text: seq<rune>)
    ensures |text| == |s|
    ensures forall i :: 0 <= i < |s| ==> text[i] as int == s[i] as int
  {
    seq(|s|, i requires 0 <= i < |s| => s[i] as int as rune)
  }

  /** Pressing Enter at once accepts the placeholder: the React project is `my-app`. */
  lemma EnterAcceptsDefaultName()
    ensures BootApp(Answers(None, [Enter], Some("react"), Some("pnpm"), Some("none"), {}))
      == Exited([Command("pnpm", ["create", "vite@latest", "my-app", "--template", "react-ts"]),
                 Chdir("my-app"),
                 Command("pnpm", ["install"]),
                 Command("git", ["init"]),
                 Command("git", ["add", "."]),
                 Command("git", ["commit", "-m", "Initial commit from Create React App via Vite"]),
                 Chdir("..")], 0)
  {
    assert Feed(DefaultName, Initial, [Enter]) == Done(Return(DefaultName, None), []);
    assert ToText(DefaultName) == "my-app";
  }

  /** Typing `shop-app` and Enter submits `shop-app`. */
  lemma TypedNameSubmitted()
    ensures Feed(DefaultName, Initial, Typed(Runes("shop-app")) + [Enter])
      == Done(Return(FromByteText("shop-app"), None), [])
  {
    var text := Runes("shop-app");
    TypeAndSubmit(DefaultName, text);
    EncodeAllAscii(text);
    assert EncodeAll(text) == FromByteText("shop-app");
  }

  /** Typing `abc`, two backspaces, `x` and Enter submits `ax`. */
  lemma EditedNameSubmitted()
    ensures Feed(DefaultName, Initial, Typed(Runes("abc")) + Backspaces(2) + Typed(Runes("x")) + [Enter])
      == Done(Return(FromByteText("ax"), None), [])
  {
    var abc := Typed(Runes("abc"));
    EditedTyped(Runes("abc"));
    EncodeAllAscii(Runes("abc"));
    BackspacesDropBytes(abc, 2);
    var keys := abc + Backspaces(2) + Typed(Runes("x"));
    assert Typed(Runes("x")) == [Char(0x78)];
    assert keys[..|keys| - 1] == abc + Backspaces(2);
    assert Edited(keys) == FromByteText("ax");
    assert keys + [Enter] == keys + [Enter] + [];
    SubmitAfterEdits(DefaultName, keys, []);
  }
}

=== FILE: plan.dfy ===
/** The commands `bootApp` issues once the answers are known (main.go:50-127), as a pure
    plan: external commands with their exact argument lists, and the filesystem actions
    between them. */
module Plan {
  /** One planned step: an external command run through the shell's search path, a call
      of the `gh` CLI, or a filesystem action. */
  datatype Action =
    | Command(name: string, args: seq<string>)
    | Gh(args: seq<string>)
    | Mkdir(path: string)
    | Chdir(path: string)
    | Remove(path: string)
    | Create(path: string)

  /** Why no plan exists: the only case is a template outside the menu. */
  datatype PlanError = InvalidFramework

  datatype Result<+T> = Ok(value: T) | Err(error: PlanError)

  /** The templates the menu offers and the switch handles. */
  const Templates: seq<string> := ["nextjs@latest", "nextjs@canary", "react", "cdk"]

  /** Arguments of `npx create-next-app@<tag> <name> --use-<pm> ...`; canary adds `--turbo`. */
  function NextArgs(tag: string, name: string, pm: string): seq<string>
  {
    var common := ["create-next-app@" + tag, name, "--use-" + pm, "--ts", "--app", "--tailwind",
                   "--no-eslint", "--no-src-dir", "--no-import-alias"];
    if tag == "canary" then common + ["--turbo"] else common
  }

  /** The canary argument list, spelled out. */
  lemma CanaryArgs(name: string, pm: string)
    ensures NextArgs("canary", name, pm)
      == ["create-next-app@canary", name, "--use-" + pm, "--ts", "--app", "--tailwind",
          "--no-eslint", "--no-src-dir", "--no-import-alias", "--turbo"]
  {
    var args := NextArgs("canary", name, pm);
    var spelled := ["create-next-app@canary", name, "--use-" + pm, "--ts", "--app", "--tailwind",
                    "--no-eslint", "--no-src-dir", "--no-import-alias", "--turbo"];
    assert "create-next-app@" + "canary" == "create-next-app@canary";
    forall i | 0 <= i < |args| ensures args[i] == spelled[i] {
    }
  }

  /** The verb that adds a dependency: npm's is `i`, the others' is `add`. */
  function AddVerb(pm: string): string
  {
    if pm == "npm" then "i" else "add"
  }

  /** The local part of the plan: create the project for the chosen template and enter
      its directory (for `cdk`, the directory is made and entered first), then the
      template's own follow-up steps. */
  function Scaffold(template: string, pm: string, name: string): (r: Result<seq<Action>>)
    ensures r.Ok? <==> template in Templates
    ensures r.Ok? ==> |r.value| >= 2 && r.value[1] == Chdir(name)
    ensures r.Ok? ==> forall a :: a in r.value ==> !a.Gh?
    ensures template == "cdk" ==>
      && r.Ok? && |r.value| == 8 && r.value[0] == Mkdir(name)
      && r.value[2] == Command("cdk", ["init", "app", "-l", "typescript"])
    ensures template == "react" ==>
      r.Ok? && r.value[0] == Command(pm, ["create", "vite@latest", name, "--template", "react-ts"])
    ensures template == "nextjs@latest" ==>
      r == Ok([Command("npx", ["create-next-app@latest", name, "--use-" + pm, "--ts", "--app", "--tailwind",
                               "--no-eslint", "--no-src-dir", "--no-import-alias"]),
               Chdir(name)])
    ensures template == "nextjs@canary" ==>
      r == Ok([Command("npx", ["create-next-app@canary", name, "--use-" + pm, "--ts", "--app", "--tailwind",
                               "--no-eslint", "--no-src-dir", "--no-import-alias", "--turbo"]),
               Chdir(name)])
  {
    match template
    case "nextjs@latest" =>
      assert "create-next-app@" + "latest" == "create-next-app@latest";
      Ok([Command("npx", NextArgs("latest", name, pm)), Chdir(name)])
    case "nextjs@canary" =>
      CanaryArgs(name, pm);
      Ok([Command("npx", NextArgs("canary", name, pm)), Chdir(name)])
    case "react" =>
      Ok([Command(pm, ["create", "vite@latest", name, "--template", "react-ts"]),
          Chdir(name),
          Command(pm, ["install"]),
          Command("git", ["init"]),
          Command("git", ["add", "."]),
          Command("git", ["commit", "-m", "Initial commit from Create React App via Vite"])])
    case "cdk" =>
      Ok([Mkdir(name),
          Chdir(name),
          Command("cdk", ["init", "app", "-l", "typescript"]),
          Remove("package-lock.json"),
          Command(pm, ["install"]),
          Command(pm, [AddVerb(pm), "hono"]),
          Mkdir("lambda"),
          Create("lambda/index.ts")])
    case _ =>
      Err(InvalidFramework)
  }

  /** The `gh` call that creates the remote repository from the current directory and
      pushes to it. */
  function RepoCreate(name: string, visibility: string): Action
  {
    Gh(["repo", "create", name, "--source", ".", "--" + visibility, "--remote", "gh-origin", "--push"])
  }

  /** The remote part of the plan: create and push the repository unless the visibility
      is `none`, then go back to the parent directory. */
  function Publish(name: string, visibility: string): (r: seq<Action>)
    ensures |r| == if visibility == "none" then 1 else 2
    ensures r[|r| - 1] == Chdir("..")
  {
    (if visibility != "none" then [RepoCreate(name, visibility)] else []) + [Chdir("..")]
  }

  /** Everything `bootApp` does after the prompts, in order. */
  function BootPlan(template: string, pm: string, name: string, visibility: string): (r: Result<seq<Action>>)
    ensures r.Err? <==> template !in Templates
  {
    match Scaffold(template, pm, name)
    case Ok(local) => Ok(local + Publish(name, visibility))
    case Err(e) => Err(e)
  }

  /** The two Next.js templates run the same `npx` command but for the `create-next-app`
      tag and canary's trailing `--turbo`, and both pass `--use-<pm>`; the rest of the plan
      is the same. */
  lemma NextjsVariants(pm: string, name: string, visibility: string)
    ensures BootPlan("nextjs@latest", pm, name, visibility).Ok?
    ensures BootPlan("nextjs@canary", pm, name, visibility).Ok?
    ensures
      var latest := BootPlan("nextjs@latest", pm, name, visibility).value;
      var canary := BootPlan("nextjs@canary", pm, name, visibility).value;
      && latest[0].Command? && canary[0].Command?
      && latest[0].name == canary[0].name == "npx"
      && var l, c := latest[0].args, canary[0].args;
      && |c| == |l| + 1
      && l[0] == "create-next-app@latest" && c[0] == "create-next-app@canary"
      && c[1..|l|] == l[1..]
      && c[|l|] == "--turbo"
      && l[2] == "--use-" + pm
      && latest[1..] == canary[1..]
  {
  }

  /** For `cdk` the project directory is made and entered, `cdk init` runs, the lock file
      is removed, then `<pm> install` runs, then `<pm> <verb> hono`, where the verb is `i`
      exactly for npm and `add` for every other manager; last the `lambda` directory and
      its empty `index.ts` are created. */
  lemma CdkInstallsThenAddsHono(pm: string, name: string, visibility: string)
    ensures BootPlan("cdk", pm, name, visibility).Ok?
    ensures
      var plan := BootPlan("cdk", pm, name, visibility).value;
      && |plan| == 8 + |Publish(name, visibility)|
      && plan[..3] == [Mkdir(name), Chdir(name), Command("cdk", ["init", "app", "-l", "typescript"])]
      && plan[3] == Remove("package-lock.json")
      && plan[4] == Command(pm, ["install"])
      && plan[5].Command? && plan[5].name == pm && |plan[5].args| == 2
      && plan[5].args[1] == "hono"
      && (plan[5].args[0] == "i" <==> pm == "npm")
      && (plan[5].args[0] == "add" <==> pm != "npm")
      && plan[6..8] == [Mkdir("lambda"), Create("lambda/index.ts")]
  {
  }

  /** `gh repo create` is planned exactly when the visibility is not `none`, with the
      project name and `--<visibility>`; it is the last thing run, followed only by the
      return to the parent directory. */
  lemma RemoteStepLast(template: string, pm: string, name: string, visibility: string)
    requires template in Templates
    ensures BootPlan(template, pm, name, visibility).Ok?
    ensures
      var plan := BootPlan(template, pm, name, visibility).value;
      && (RepoCreate(name, visibility) in plan <==> visibility != "none")
      && (forall a :: a in plan && a.Gh? ==> a == RepoCreate(name, visibility))
      && plan[|plan| - 1] == Chdir("..")
      && (visibility != "none" ==> plan[|plan| - 2] == RepoCreate(name, visibility))
  {
    var local := Scaffold(template, pm, name).value;
    var plan := BootPlan(template, pm, name, visibility).value;
    assert plan == local + Publish(name, visibility);
    if visibility == "none" {
      assert RepoCreate(name, visibility) !in local;
    }
  }

  /** Only `react` runs `git init`, `git add .` and `git commit`, right after `<pm> install`
      and right before publishing; `<pm> install` runs for `react` and `cdk` only. */
  lemma OnlyReactCommits(template: string, pm: string, name: string, visibility: string)
    requires template in Templates
    ensures BootPlan(template, pm, name, visibility).Ok?
    ensures
      var plan := BootPlan(template, pm, name, visibility).value;
      && (Command("git", ["init"]) in plan <==> template == "react")
      && (Command("git", ["add", "."]) in plan <==> template == "react")
      && (Command("git", ["commit", "-m", "Initial commit from Create React App via Vite"]) in plan
          <==> template == "react")
      && (Command(pm, ["install"]) in plan <==> template == "react" || template == "cdk")
      && (template == "react" ==>
            && |plan| == 6 + |Publish(name, visibility)|
            && plan[2..6] == [Command(pm, ["install"]),
                              Command("git", ["init"]),
                              Command("git", ["add", "."]),
                              Command("git", ["commit", "-m", "Initial commit from Create React App via Vite"])])
  {
    var local := Scaffold(template, pm, name).value;
    var plan := BootPlan(template, pm, name, visibility).value;
    assert plan == local + Publish(name, visibility);
    assert Command("git", ["init"]) !in Publish(name, visibility);
    assert Command("git", ["add", "."]) !in Publish(name, visibility);
    assert Command("git", ["commit", "-m", "Initial commit from Create React App via Vite"])
      !in Publish(name, visibility);
    assert Command(pm, ["install"]) !in Publish(name, visibility);
  }
}

=== FILE: prompt.dfy ===
/** The key-event state machine of `promptWithPlaceholder` (main.go:131-194), with the
    terminal redraws removed: one key is one `Step`, a run of keys is `Feed`. */
module Prompt {
  import opened Base
  import opened Utf8

  /** A key as the read loop classifies it. Both backspace codes are `Backspace`;
      Ctrl-C and Ctrl-D are `Interrupt`; every other key is `Char` of the rune read. */
  datatype Key = Enter | Backspace | Interrupt | ReadError(err: string) | Char(c: rune)

  /** The loop's two variables: the typed bytes and whether the placeholder is shown. */
  datatype State = State(input: Bytes, placeholderVisible: bool)

  /** What the Go function ends with: a `(value, err)` return, or `os.Exit(code)`. */
  datatype Outcome = Return(value: Bytes, err: Option<string>) | Exit(code: int)

  /** One loop iteration either keeps reading from a new state or ends. */
  datatype StepResult = Continue(next: State) | Stop(outcome: Outcome)

  /** Where a run over finitely many keys stands: still reading (keys ran out), or done,
      with the keys that were never read. */
  datatype Progress = Reading(state: State) | Done(outcome: Outcome, unread: seq<Key>)

  /** The state before the first key. */
  const Initial := State([], true)

  /** The coupling the loop keeps between its two variables. */
  predicate Coupled(s: State)
  {
    s.placeholderVisible <==> s.input == []
  }

  /** The fix-up at the end of every non-terminal iteration: an empty buffer shows the
      placeholder again. */
  function Restore(s: State): (r: State)
    ensures r.input == s.input
    ensures s.input == [] ==> r.placeholderVisible
    ensures s.input != [] ==> r == s
  {
    if s.input == [] && !s.placeholderVisible then State(s.input, true) else s
  }

  /** One iteration of the read loop on key `k`. */
  function Step(placeholder: Bytes, s: State, k: Key): (r: StepResult)
    ensures Coupled(s) && r.Continue? ==> Coupled(r.next)
    ensures r.Stop? && r.outcome.Return? && r.outcome.err.None? ==> r.outcome.value != []
    ensures r.Stop? && r.outcome.Return? && r.outcome.err.Some? ==> r.outcome.value == []
    ensures r.Stop? && r.outcome.Exit? ==> r.outcome.code == 1
  {
    match k
    case Enter =>
      var submitted := if s.input == [] && s.placeholderVisible then placeholder else s.input;
      if submitted == [] then Continue(State([], true))
      else Stop(Return(submitted, None))
    case Backspace =>
      var input := if |s.input| > 0 then s.input[..|s.input| - 1] else s.input;
      Continue(Restore(State(input, s.placeholderVisible)))
    case Interrupt =>
      Stop(Exit(1))
    case ReadError(e) =>
      Stop(Return([], Some(e)))
    case Char(c) =>
      Continue(Restore(State(s.input + Encode(c), false)))
  }

  /** The keys that can end the prompt; typing and deleting never do. */
  predicate Ends(k: Key)
  {
    k.Enter? || k.Interrupt? || k.ReadError?
  }

  /** Reads `keys` one at a time from state `s` until a key ends the prompt. */
  function Feed(placeholder: Bytes, s: State, keys: seq<Key>): (r: Progress)
    ensures r.Done? ==> |r.unread| < |keys| && r.unread == keys[|keys| - |r.unread|..]
    ensures r.Done? ==> Ends(keys[|keys| - |r.unread| - 1])
    ensures r.Done? && r.outcome.Return? && r.outcome.err.None? ==> r.outcome.value != []
    ensures r.Done? && r.outcome.Exit? ==> r.outcome.code == 1
    ensures Coupled(s) && r.Reading? ==> Coupled(r.state)
    decreases |keys|
  {
    if keys == [] then Reading(s)
    else
      match Step(placeholder, s, keys[0])
      case Continue(next) => Feed(placeholder, next, keys[1..])
      case Stop(o) => Done(o, keys[1..])
  }

  /** The whole prompt: opening the keyboard may fail before any key is read. */
  function PromptWithPlaceholder(placeholder: Bytes, openErr: Option<string>, keys: seq<Key>): (r: Progress)
    ensures openErr.Some? ==> r == Done(Return([], openErr), keys)
    ensures openErr.None? ==> r == Feed(placeholder, Initial, keys)
    ensures r.Reading? ==> Coupled(r.state)
    ensures r.Done? && r.outcome.Exit? ==> r.outcome.code == 1
  {
    if openErr.Some? then Done(Return([], openErr), keys)
    else Feed(placeholder, Initial, keys)
  }

  /** Continues a run that stopped after a first batch of keys with a second batch. */
  function Resume(placeholder: Bytes, p: Progress, more: seq<Key>): Progress
  {
    match p
    case Reading(s) => Feed(placeholder, s, more)
    case Done(o, unread) => Done(o, unread + more)
  }

  /** Feeding keys in two batches is feeding them at once: the loop has no look-ahead, and
      once a key ends the prompt nothing after it is read. */
  lemma {:induction false} FeedAppend(placeholder: Bytes, s: State, a: seq<Key>, b: seq<Key>)
    ensures Feed(placeholder, s, a + b) == Resume(placeholder, Feed(placeholder, s, a), b)
    decreases |a|
  {
    if a == [] {
      assert a + b == b;
    } else {
      assert (a + b)[0] == a[0];
      assert (a + b)[1..] == a[1..] + b;
      match Step(placeholder, s, a[0])
      case Continue(next) =>
        FeedAppend(placeholder, next, a[1..], b);
      case Stop(o) =>
    }
  }

  /** Enter substitutes the placeholder for an empty buffer and returns a non-empty
      submission; it keeps reading, from the initial state, exactly when both are empty. */
  lemma EnterOutcome(placeholder: Bytes, s: State)
    requires Coupled(s)
    ensures s.input != [] ==> Step(placeholder, s, Enter) == Stop(Return(s.input, None))
    ensures s.input == [] && placeholder != [] ==> Step(placeholder, s, Enter) == Stop(Return(placeholder, None))
    ensures Step(placeholder, s, Enter).Continue? <==> s.input == [] && placeholder == []
    ensures Step(placeholder, s, Enter).Continue? ==> Step(placeholder, s, Enter).next == Initial
  {
  }

  /** Backspace leaves an empty buffer alone and otherwise removes exactly its last byte. */
  lemma BackspaceRemovesLastByte(placeholder: Bytes, s: State)
    requires Coupled(s)
    ensures s.input == [] ==> Step(placeholder, s, Backspace) == Continue(s)
    ensures s.input != [] ==>
      && Step(placeholder, s, Backspace).Continue?
      && Step(placeholder, s, Backspace).next.input + [s.input[|s.input| - 1]] == s.input
  {
  }

  /** An interrupt or a read error ends the prompt at once, whatever was typed before it,
      and none of the keys after it are read. */
  lemma TerminalKeyStops(placeholder: Bytes, s: State, before: seq<Key>, k: Key, after: seq<Key>)
    requires Feed(placeholder, s, before).Reading?
    requires k.Interrupt? || k.ReadError?
    ensures Feed(placeholder, s, before + [k] + after)
      == Done(if k.Interrupt? then Exit(1) else Return([], Some(k.err)), after)
  {
    assert before + [k] + after == before + ([k] + after);
    FeedAppend(placeholder, s, before, [k] + after);
  }

  /** The keys that edit the buffer. */
  predicate IsEdit(k: Key)
  {
    k.Backspace? || k.Char?
  }

  predicate AllEdits(keys: seq<Key>)
  {
    forall i :: 0 <= i < |keys| ==> IsEdit(keys[i])
  }

  /** The buffer after a run of editing keys, defined from the last key backwards: the
      bytes each `Char` appends, minus the last byte for each `Backspace` on a non-empty
      buffer. */
  function Edited(keys: seq<Key>): Bytes
    requires AllEdits(keys)
  {
    if keys == [] then []
    else
      var b := Edited(keys[..|keys| - 1]);
      match keys[|keys| - 1]
      case Char(c) => b + Encode(c)
      case Backspace => if b == [] then [] else b[..|b| - 1]
  }

  /** Editing keys never end the prompt; they leave the buffer `Edited(keys)`, with the
      placeholder shown exactly when that is empty. */
  lemma {:induction false} EditsBuildBuffer(placeholder: Bytes, keys: seq<Key>)
    requires AllEdits(keys)
    ensures Feed(placeholder, Initial, keys) == Reading(State(Edited(keys), Edited(keys) == []))
    decreases |keys|
  {
    if keys != [] {
      var front, last := keys[..|keys| - 1], keys[|keys| - 1];
      assert AllEdits(front);
      EditsBuildBuffer(placeholder, front);
      assert keys == front + [last];
      FeedAppend(placeholder, Initial, front, [last]);
      var b := Edited(front);
      var r := Step(placeholder, State(b, b == []), last);
      assert r.Continue? && r.next == State(Edited(keys), Edited(keys) == []);
      assert Feed(placeholder, State(b, b == []), [last]) == Feed(placeholder, r.next, []);
    }
  }

  /** Enter after a run of edits returns exactly the edited buffer, or the placeholder when
      the buffer is empty; only an empty placeholder makes it start over. */
  lemma SubmitAfterEdits(placeholder: Bytes, keys: seq<Key>, rest: seq<Key>)
    requires AllEdits(keys)
    ensures Feed(placeholder, Initial, keys + [Enter] + rest)
      == if Edited(keys) != [] then Done(Return(Edited(keys), None), rest)
         else if placeholder != [] then Done(Return(placeholder, None), rest)
         else Feed(placeholder, Initial, rest)
  {
    EditsBuildBuffer(placeholder, keys);
    assert keys + [Enter] + rest == keys + ([Enter] + rest);
    FeedAppend(placeholder, Initial, keys, [Enter] + rest);
  }

  /** The keys produced by typing `text`, one rune per key. */
  function Typed(text: seq<rune>): (keys: seq<Key>)
    ensures |keys| == |text| && AllEdits(keys)
    ensures forall i :: 0 <= i < |text| ==> keys[i] == Char(text[i])
  {
    seq(|text|, i requires 0 <= i < |text| => Char(text[i]))
  }

  /** The UTF-8 bytes of `text`, rune after rune. */
  function EncodeAll(text: seq<rune>): Bytes
  {
    if text == [] then [] else EncodeAll(text[..|text| - 1]) + Encode(text[|text| - 1])
  }

  lemma {:induction false} EditedTyped(text: seq<rune>)
    ensures Edited(Typed(text)) == EncodeAll(text)
    decreases |text|
  {
    if text != [] {
      assert Typed(text)[..|text| - 1] == Typed(text[..|text| - 1]);
      EditedTyped(text[..|text| - 1]);
    }
  }

  /** Typing non-empty text and pressing Enter returns the text's UTF-8 bytes. */
  lemma TypeAndSubmit(placeholder: Bytes, text: seq<rune>)
    requires text != []
    ensures Feed(placeholder, Initial, Typed(text) + [Enter])
      == Done(Return(EncodeAll(text), None), [])
  {
    EditedTyped(text);
    assert Encode(text[|text| - 1]) != [];
    assert Typed(text) + [Enter] == Typed(text) + [Enter] + [];
    SubmitAfterEdits(placeholder, Typed(text), []);
  }

  predicate IsAscii(text: seq<rune>)
  {
    forall i :: 0 <= i < |text| ==> 0 <= text[i] < 0x80
  }

  /** ASCII text is its own byte string. */
  lemma {:induction false} EncodeAllAscii(text: seq<rune>)
    requires IsAscii(text)
    ensures EncodeAll(text) == seq(|text|, i requires 0 <= i < |text| => text[i] as int as byte)
    decreases |text|
  {
    if text != [] {
      EncodeAllAscii(text[..|text| - 1]);
    }
  }

  function Backspaces(n: nat): (keys: seq<Key>)
    ensures |keys| == n && AllEdits(keys)
    ensures forall i :: 0 <= i < n ==> keys[i] == Backspace
  {
    seq(n, _ => Backspace)
  }

  /** `n` backspaces drop the last `n` bytes of the buffer, or all of them. */
  lemma {:induction false} BackspacesDropBytes(keys: seq<Key>, n: nat)
    requires AllEdits(keys)
    ensures AllEdits(keys + Backspaces(n))
    ensures Edited(keys + Backspaces(n))
      == if n <= |Edited(keys)| then Edited(keys)[..|Edited(keys)| - n] else []
    decreases n
  {
    var all := keys + Backspaces(n);
    assert AllEdits(all) by {
      forall i | 0 <= i < |all| ensures IsEdit(all[i]) {
        if i >= |keys| { assert all[i] == Backspaces(n)[i - |keys|]; }
      }
    }
    if n > 0 {
      assert all[..|all| - 1] == keys + Backspaces(n - 1);
      BackspacesDropBytes(keys, n - 1);
    } else {
      assert all == keys;
    }
  }

  /** Typing `n` ASCII characters and then `n` backspaces brings the prompt back to its
      initial state, placeholder shown. */
  lemma TypeThenEraseAscii(placeholder: Bytes, text: seq<rune>)
    requires IsAscii(text)
    ensures Feed(placeholder, Initial, Typed(text) + Backspaces(|text|)) == Reading(Initial)
  {
    EditedTyped(text);
    EncodeAllAscii(text);
    BackspacesDropBytes(Typed(text), |text|);
    EditsBuildBuffer(placeholder, Typed(text) + Backspaces(|text|));
  }

  /** Backspace deletes a byte, not a rune: after typing a rune it restores the previous
      state exactly when the rune is ASCII, and otherwise leaves the leading bytes of the
      rune's encoding in the buffer, placeholder hidden. */
  lemma BackspaceAfterChar(placeholder: Bytes, s: State, c: rune)
    requires Coupled(s)
    ensures Feed(placeholder, s, [Char(c), Backspace]).Reading?
    ensures Feed(placeholder, s, [Char(c), Backspace]).state.input
      == s.input + Encode(c)[..|Encode(c)| - 1]
    ensures Feed(placeholder, s, [Char(c), Backspace]).state == s <==> 0 <= c < 0x80
  {
    var e := Encode(c);
    var typed := State(s.input + e, false);
    assert |e| >= 1;
    assert Step(placeholder, s, Char(c)) == Continue(typed);
    assert (s.input + e)[..|s.input + e| - 1] == s.input + e[..|e| - 1];
    var erased := Restore(State(s.input + e[..|e| - 1], false));
    assert Step(placeholder, typed, Backspace) == Continue(erased);
    assert [Char(c), Backspace][1..] == [Backspace];
    assert Feed(placeholder, s, [Char(c), Backspace]) == Feed(placeholder, typed, [Backspace]);
    assert Feed(placeholder, typed, [Backspace]) == Feed(placeholder, erased, []);
    if erased == s {
      assert |e| == 1;
    }
  }
}

=== FILE: utf8.dfy ===
/** Go's conversion `string(r)` of one rune to UTF-8 bytes, and a decoder that undoes it. */
module Utf8 {
  import opened Base

  /** A Go `rune`: any signed 32-bit integer, not necessarily a valid code point. */
  newtype rune = x: int | -0x8000_0000 <= x < 0x8000_0000

  /** U+FFFD, which Go substitutes for a rune that has no UTF-8 encoding. */
  const RuneError: rune := 0xFFFD

  /** A Unicode scalar value: a code point that is not a surrogate. */
  predicate IsScalar(r: rune)
  {
    0 <= r <= 0x10FFFF && !(0xD800 <= r <= 0xDFFF)
  }

  predicate IsContinuation(b: byte)
  {
    0x80 <= b < 0xC0
  }

  /** The bytes Go's `string(r)` produces: one to four bytes by magnitude, U+FFFD for
      negative runes, surrogates and runes beyond U+10FFFF. */
  function Encode(r: rune): (bs: Bytes)
    ensures 1 <= |bs| <= 4
    ensures !IsContinuation(bs[0])
    ensures forall i :: 1 <= i < |bs| ==> IsContinuation(bs[i])
    ensures |bs| == if 0 <= r < 0x80 then 1
                    else if 0 <= r < 0x800 then 2
                    else if !IsScalar(r) || r < 0x1_0000 then 3
                    else 4
  {
    var c := r as int;
    if 0 <= c < 0x80 then
      [c as byte]
    else if 0 <= c < 0x800 then
      [(0xC0 + c / 0x40) as byte, (0x80 + c % 0x40) as byte]
    else if !IsScalar(r) then
      [0xEF, 0xBF, 0xBD]
    else if c < 0x1_0000 then
      [(0xE0 + c / 0x1000) as byte, (0x80 + c / 0x40 % 0x40) as byte, (0x80 + c % 0x40) as byte]
    else
      [(0xF0 + c / 0x4_0000) as byte, (0x80 + c / 0x1000 % 0x40) as byte,
       (0x80 + c / 0x40 % 0x40) as byte, (0x80 + c % 0x40) as byte]
  }

  /** The low six payload bits of a continuation byte. */
  function Payload(b: byte): int
  {
    b as int % 0x40
  }

  /** Decodes a byte string holding exactly one shortest-form encoded rune; anything
      else, overlong forms included, reads as U+FFFD. */
  function Decode(bs: Bytes): rune
  {
    var r := DecodeAnyLength(bs);
    if |bs| == 2 && r < 0x80 then RuneError
    else if |bs| == 3 && r < 0x800 then RuneError
    else if |bs| == 4 && r < 0x1_0000 then RuneError
    else r
  }

  /** The value the lead and continuation bytes spell out, before the shortest-form check. */
  function DecodeAnyLength(bs: Bytes): rune
  {
    if |bs| == 1 && bs[0] < 0x80 then
      bs[0] as rune
    else if |bs| == 2 && 0xC0 <= bs[0] < 0xE0 && IsContinuation(bs[1]) then
      ((bs[0] as int - 0xC0) * 0x40 + Payload(bs[1])) as rune
    else if |bs| == 3 && 0xE0 <= bs[0] < 0xF0 && IsContinuation(bs[1]) && IsContinuation(bs[2]) then
      ((bs[0] as int - 0xE0) * 0x1000 + Payload(bs[1]) * 0x40 + Payload(bs[2])) as rune
    else if |bs| == 4 && 0xF0 <= bs[0] < 0xF8 && IsContinuation(bs[1]) && IsContinuation(bs[2])
            && IsContinuation(bs[3]) then
      ((bs[0] as int - 0xF0) * 0x4_0000 + Payload(bs[1]) * 0x1000 + Payload(bs[2]) * 0x40
       + Payload(bs[3])) as rune
    else
      RuneError
  }

  /** Encoding loses nothing for a scalar value, and every other rune becomes U+FFFD. */
  lemma DecodeEncode(r: rune)
    ensures Decode(Encode(r)) == if IsScalar(r) then r else RuneError
  {
    var c := r as int;
    if 0x80 <= c < 0x800 {
      DecodeEncodeTwo(r);
    } else if 0x800 <= c && IsScalar(r) {
      if c < 0x1_0000 { DecodeEncodeThree(r); } else { DecodeEncodeFour(r); }
    }
  }

  lemma DecodeEncodeTwo(r: rune)
    requires 0x80 <= r < 0x800
    ensures Decode(Encode(r)) == r
  {
    var c := r as int;
    SplitDigits(c);
    assert Payload(Encode(r)[1]) == c % 0x40;
  }

  lemma DecodeEncodeThree(r: rune)
    requires 0x800 <= r < 0x1_0000 && IsScalar(r)
    ensures Decode(Encode(r)) == r
  {
    var c := r as int;
    var bs := Encode(r);
    SplitDigits(c);
    assert Payload(bs[1]) == c / 0x40 % 0x40;
    assert Payload(bs[2]) == c % 0x40;
  }

  lemma DecodeEncodeFour(r: rune)
    requires 0x1_0000 <= r <= 0x10FFFF
    ensures Decode(Encode(r)) == r
  {
    var c := r as int;
    var bs := Encode(r);
    SplitDigits(c);
    assert Payload(bs[1]) == c / 0x1000 % 0x40;
    assert Payload(bs[2]) == c / 0x40 % 0x40;
    assert Payload(bs[3]) == c % 0x40;
  }

  /** A non-negative number taken apart into six-bit digits and put back together. */
  lemma SplitDigits(c: int)
    requires 0 <= c
    ensures c == c / 0x40 * 0x40 + c % 0x40
    ensures c == c / 0x1000 * 0x1000 + c / 0x40 % 0x40 * 0x40 + c % 0x40
    ensures c == c / 0x4_0000 * 0x4_0000 + c / 0x1000 % 0x40 * 0x1000 + c / 0x40 % 0x40 * 0x40 + c % 0x40
  {
    assert c / 0x1000 == c / 0x40 / 0x40;
    assert c / 0x4_0000 == c / 0x1000 / 0x40;
  }

  /** Every rune without an encoding of its own is written exactly as U+FFFD is. */
  lemma InvalidRuneIsReplacement(r: rune)
    requires !IsScalar(r)
    ensures Encode(r) == Encode(RuneError)
  {
  }

  /** So distinct scalar values never share an encoding. */
  lemma EncodeInjective(r: rune, q: rune)
    requires IsScalar(r) && IsScalar(q) && Encode(r) == Encode(q)
    ensures r == q
  {
    DecodeEncode(r);
    DecodeEncode(q);
  }
}
